=== FILE: README.md ===
# Diet planner: the decision rules of the UI callbacks

The diet planner is a multi-page web form. It collects a user profile and
hands it to three language-model agents: a meal planner, an adherence
tracker and a motivator. It shows their answers and offers an HTML report
for download. Around the framework and agent calls, its callbacks make a
small number of plain decisions. This project models those decisions in
Dafny and proves what they do:

- **Adherence percentage** (`percentage.dfy`, module `Percentage`). The
  number `evaluate_commitment` reads from the tracker's free-text reply. It is
  the first `(\d+)%` match; failing that, digits after leading whitespace;
  failing that, 0. The regular-expression search is modelled the way the
  engine runs it: the leftmost start position, a greedy digit run, then `%`.
  Three lemmas restate the result in terms of the text alone.
- **Tracker outputs** (`tracker.dfy`, module `Tracker`). The four colour tiers
  (85 / 70 / 50), the two pie values, the summary text, the summary store and
  the error paths of `evaluate_commitment`.
- **Form-state merge** (`profile.dfy`, module `Profile`). `update_user_data`
  partially updates the user store. It skips `None` inputs and renames two
  keys. Three fields fall back to a default text.
- **Required fields** (`validation.dfy`, module `Validation`). The
  missing-field list and the `all(...)` check use Python truthiness. This
  module also holds the input defaults and outputs of `generate_meal_plan`.
- **Navigation** (`navigation.dfy`, module `Navigation`). Covers `PAGE_ORDER`,
  `navigate_next` with its meal-planner gate, `navigate_prev` and
  `show_navigation_errors`. It also covers the buttons of
  `create_nav_buttons` and the routing of `display_page`.
- **Report** (`report.dfy`, module `Report`). The guard chain of
  `download_report`. Also the display-name rule, the newline-to-`<br>`
  substitution and the profile cells of `generate_html_report_content`.

Two base modules model Python values. `PyValue` (`py_value.dfy`) has
`None`, booleans, numbers, strings and dictionaries, with `bool()`,
`dict.get`, `str.join` and `str()`. Browser-side store data is `None` or a
dictionary, and a callback output is `dash.no_update` or a value. `Decimal`
(`decimal.dfy`) models `int()` on a digit run and `str()` on an integer.

An agent run is a parameter of the callback that starts it:
`AgentReply = Completed(raw) | Raised(detail)`. So the model makes no
assumption about what the agents answer. The clock reading that
`generate_meal_plan` stores is a parameter too.

Two facts about the code are worth stating up front:

- The parsed percentage is never clamped. A reply of "150%" gives 150
  (`Percentage.NotClamped`), and the second pie value is then negative
  (`Tracker.PieValues`).
- There are four colour tiers.

`int()` is modelled with CPython's default cap of 4300 digits
(`sys.get_int_max_str_digits()`, in Python 3.11 and later and in the 3.10.7
and 3.9.14 security releases). A number group longer than
that makes `int()` raise inside `evaluate_commitment`'s `try`, which then
takes its failure path (`Tracker.OverlongNumberFails`). Writing the number
back with `str()` can never hit the cap (`Tracker.DisplayWithinLimit`).

## Model

| member | source | states |
|---|---|---|
| `Decimal.Format` | Diet_planner/app.py:491 | `str(p)` of a percentage is a non-empty run of ASCII digits, with no leading zero unless p is 0 |
| `Decimal.ParseFormat` | Diet_planner/app.py:487 | `int()` applied to what `str()` wrote for a natural number gives that number back |
| `Decimal.Parse` | Diet_planner/app.py:487-490 | `int()` of a digit group; leading zeros do not change the value |
| `Decimal.FormatInt` | Diet_planner/app.py:619-621 | `str()` of an integer is its digits, with a leading `-` for a negative one, and no leading zero unless the integer is 0. Reading the digits back gives its magnitude, so the spelling is unique |
| `Decimal.ParseBound` | Diet_planner/app.py:487 | `k` digits read by `int()` give a number below `10^k` |
| `Decimal.FormatLength` | Diet_planner/app.py:491 | a number below `10^k` is written by `str()` with at most `k` digits |
| `Percentage.SearchFrom` | Diet_planner/app.py:486 | the `re.search` result is the leftmost position where `(\d+)%` matches; no earlier position matches; when there is no result, no position matches |
| `Percentage.OnlyGreedyMatches` | Diet_planner/app.py:486 | a backtracked shorter `\d+` can never be followed by `%`: the only match at a position takes its whole digit run |
| `Percentage.Search` | Diet_planner/app.py:486 | `re.search(r'(\d+)%', ...)`: a match is a digit run followed by `%`, and no position before it starts one. No match means no position starts one |
| `Percentage.LeadingNumber` | Diet_planner/app.py:489-490 | `re.match(r'^\s*(\d+)', ...)` read by `int()`: the value of the maximal digit run right after the leading whitespace. There is no result exactly when no digit follows that whitespace |
| `Percentage.DigitCount` | Diet_planner/app.py:486-490 | the number of digits the selected group hands to `int()` is at most the length of the reply |
| `Percentage.ParsePercentage` | Diet_planner/app.py:484-490 | the percentage is below `10^d`, where `d` is the number of digits of the group it was read from, and a reply with no digit gives 0. `FirstPercentRule`, `LeadingDigitsRule` and `NoNumberRule` characterise its value in terms of the text alone |
| `Percentage.FirstPercentRule` | Diet_planner/app.py:485-487 | if some `%` follows a digit, the percentage is the value of the maximal digit run that ends at the first such `%`. The group handed to `int()` is that whole run |
| `Percentage.LeadingDigitsRule` | Diet_planner/app.py:488-490 | with no `%` after a digit, the percentage is the value of the maximal digit run right after the leading whitespace. The group handed to `int()` is that run |
| `Percentage.NoNumberRule` | Diet_planner/app.py:485-490 | with neither a `%` after a digit nor digits after the leading whitespace, the percentage is 0 |
| `Percentage.NotClamped` | Diet_planner/app.py:485-487 | the result is not capped at 100: "150%" gives 150 |
| `Tracker.BandOf` | Diet_planner/app.py:494-497 | four tiers, each an if-and-only-if on a range: at least 85 is green; 70 to 84 is yellow; 50 to 69 is orange; below 50 is red. These are the ranges the tracker prompt names |
| `Tracker.BandMonotone` | Diet_planner/app.py:494-497 | a higher percentage never gets a lower tier |
| `Tracker.ColourIdentifiesBand` | Diet_planner/app.py:494-497 | the four chart colours are distinct, so the colour tells the tier |
| `Tracker.PieValues` | Diet_planner/app.py:502 | the two pie values are p and the rest of 100, summing to 100; the second is negative exactly when p exceeds 100 |
| `Tracker.EvaluateCommitment` | Diet_planner/app.py:471-518 | without a click every output is empty or unchanged. A click with a missing meal text shows the "please enter both meals" output and error and leaves the store unchanged. Otherwise the summary store is written. A pie is drawn iff, in addition, the user store exists, the agent completed, and the number group has at most 4300 digits. Every other written store holds "خطأ في التقييم" with percentage 0, with an empty output and a blank figure. Its error is the failure prefix plus the exception text: the agent's for a raised run, and the `None.get` attribute error for a missing user store |
| `Tracker.Colour` | Diet_planner/app.py:494-497 | each tier's chart colour is a `#rrggbb` hex colour; `ColourIdentifiesBand` shows no two tiers share one |
| `Tracker.DisplayText` | Diet_planner/app.py:491 | the summary text starts with the fixed label, ends with the raw reply unchanged, and between them holds exactly the percentage's digits, `%` and two newlines; `SummaryReparses` reads the percentage back from it |
| `Tracker.SummaryReparses` | Diet_planner/app.py:491 | parsing the stored summary text again gives the same percentage, because its header has no digit and no `%` |
| `Tracker.TrackerOutputsAgree` | Diet_planner/app.py:484-514 | on a completed evaluation whose number fits the digit cap, the stored percentage equals the parsed one. The pie shows `[p, 100 - p]` in p's tier colour with "p%" in the centre. The summary is the fixed header, p, `%` and two newlines, then the raw reply unchanged |
| `Tracker.OverlongNumberFails` | Diet_planner/app.py:487-518 | a number group longer than 4300 digits makes `int()` raise: the failure summary with percentage 0 is stored, no pie is drawn, and the error shows the ValueError text |
| `Tracker.DisplayWithinLimit` | Diet_planner/app.py:491 | when `int()` succeeded, `str()` of the percentage has at most 4300 digits, so the f-string cannot raise |
| `Profile.UpdateUserData` | Diet_planner/app.py:389-401 | key by key: a `None` input leaves the entry as it was, present or absent. Any other input is stored under its mapped key (`activity` as `activity_level`, `diet` as `diet_type`). A falsy diet, allergy or conditions value is replaced by its default |
| `Profile.GivenInputStored` | Diet_planner/app.py:391-397 | a non-`None` input for a key without a default is stored exactly as given |
| `Profile.OtherKeysUntouched` | Diet_planner/app.py:390 | keys outside the ten form keys keep their previous entry, or stay absent |
| `Profile.UpdateUserDataIdempotent` | Diet_planner/app.py:389-401 | merging the same inputs into the merged store changes nothing |
| `Profile.DefaultsReplaceFalsy` | Diet_planner/app.py:398-400 | an empty diet, allergy or conditions input stores that field's default text |
| `Validation.MissingFrom` | Diet_planner/app.py:342 | a field is in the list iff it is one of the given fields and its value is absent or falsy; the list is no longer than the field list |
| `Validation.MissingIsSubsequence` | Diet_planner/app.py:340-342 | the missing list keeps the order of the required fields |
| `Validation.MissingFieldsExactly` | Diet_planner/app.py:340-342 | any ordered sub-list of the required fields whose members are exactly the absent or falsy ones equals the missing list |
| `Validation.MissingEmptyIffAllPresent` | Diet_planner/app.py:423 | the missing list is empty iff the `all(...)` check of `generate_meal_plan` passes |
| `Validation.MealPlanInputs` | Diet_planner/app.py:418-421 | the dictionary has exactly the ten form keys. Each required field holds its raw input. Name, diet type, allergy and conditions keep a truthy input; a falsy one becomes "الزائر", "عادي" or "لا يوجد" respectively. So all four are always truthy |
| `Validation.GenerateMealPlan` | Diet_planner/app.py:415-438 | without a click nothing is updated. A meal plan text is stored iff there was a click, every required input is truthy and the agent completed. The stored text and the plan output are then the agent's raw reply, and the error is cleared. A click that stores no plan resets the store to `{}`, empties the output and shows a non-empty error. That error is the "fill in all basic data" text when a required input is falsy, and the failure prefix plus the exception text when the agent raised |
| `Validation.GenerateChecksRawInputs` | Diet_planner/app.py:417-423 | the required-field check of `generate_meal_plan` passes iff every required raw input is truthy, because the defaults never touch a required field |
| `Validation.StoredProfileGate` | Diet_planner/app.py:389-401 | when every required input is given, the merged profile has no missing field iff the same inputs pass `generate_meal_plan`'s check |
| `Navigation.IndexOf` | Diet_planner/app.py:34 | `PAGE_ORDER.index`: the index of the path, with no result (ValueError) exactly for paths outside `PAGE_ORDER` |
| `Navigation.MealPlannerGate` | Diet_planner/app.py:339-344 | the checks run in order. An empty user store gives "no profile", and only then. Otherwise missing fields give a verdict that lists exactly them, and never an empty list. Otherwise a meal store without `meal_plan_text` gives "no plan". The gate is open iff all three checks pass |
| `Navigation.NavigateNext` | Diet_planner/app.py:337-349 | no click changes nothing. The `.index` error happens exactly for a click on a path outside `PAGE_ORDER`. A page it moves to is the next one in `PAGE_ORDER`. `NextOffGate`, `LeaveMealPlanner` and `GateAgreement` characterise the rest |
| `Navigation.NavigatePrev` | Diet_planner/app.py:357-361 | the `.index` error happens exactly for a click on a path outside `PAGE_ORDER`. Nothing changes iff there was no click or the path is `/`. A page it moves to is the previous one in `PAGE_ORDER`. `PrevSteps` and `PrevUndoesNext` characterise it further |
| `Navigation.ShowNavigationErrors` | Diet_planner/app.py:371-378 | the shown text is empty iff there was no click, the page is not the meal planner, or the gate is open. `GateAgreement` and `LeaveMealPlanner` say which message is shown |
| `Navigation.GateMessagesAreNotPages` | Diet_planner/app.py:343-344 | the error texts `navigate_next` writes into the URL path are never page paths |
| `Navigation.NextOffGate` | Diet_planner/app.py:345-349 | off the meal-planner page, next goes to the following page in `PAGE_ORDER` and does nothing on the last page |
| `Navigation.PrevSteps` | Diet_planner/app.py:357-361 | previous goes to the preceding page in `PAGE_ORDER` and does nothing on `/` |
| `Navigation.PrevUndoesNext` | Diet_planner/app.py:337-361 | if next lands on a page, previous from there returns to where it started |
| `Navigation.NextUndoesPrev` | Diet_planner/app.py:337-361 | if previous lands on a page other than the meal planner, or on the meal planner with its gate open, next from there returns to where it started |
| `Navigation.GateAgreement` | Diet_planner/app.py:337-378 | on the meal-planner page, next reaches `/tracker` iff no error is shown. A gate message written into the path is the shown message. With an empty user store, next does nothing and the generic message is shown |
| `Navigation.LeaveMealPlanner` | Diet_planner/app.py:339-378 | leaving the meal-planner page forward reaches `/tracker` iff the profile is non-empty, has every required field, and a plan text is stored. Missing fields give the "required fields" message listing them. A complete profile with no `meal_plan_text` gets "generate the meal plan first" both in the path and in the shown error |
| `Navigation.GeneratedPlanOpensGate` | Diet_planner/app.py:431-434 | the meal store a successful `generate_meal_plan` writes opens the gate for any complete profile |
| `Navigation.CreateNavButtons` | Diet_planner/app.py:33-52 | there is a result iff the path is in `PAGE_ORDER`. "previous" appears iff the index is above 0. "next" appears iff the page is not the last. The home link appears iff the path is `/motivation`. The buttons come in that order, without repeats |
| `Navigation.ButtonsMatchNavigation` | Diet_planner/app.py:33-52 | on the three sub-pages, the only layouts that call `create_nav_buttons`, a button is shown exactly when pressing it changes the page (on the meal-planner page, once its gate is open). The root page lays out no navigation buttons |
| `Navigation.DisplayPage` | Diet_planner/app.py:311-319 | the main layout is chosen iff the path is not one of the three sub-pages |
| `Navigation.RoutingFollowsPageOrder` | Diet_planner/app.py:311-319 | each page of `PAGE_ORDER` gets the layout in the same position; every other path gets the main layout |
| `Report.DownloadReport` | Diet_planner/app.py:660-672 | the output is left unchanged iff there was no click. The report is sent iff there was a click and all four stores pass their check. It then comes with the success message and the user store as its profile. A cleared download comes with one of the four guard messages. `GuardPrecedence` says which one |
| `Report.GuardPrecedence` | Diet_planner/app.py:661-665 | after a click, the first failing check decides the message and clears the download. The checks run in order: meal plan, tracker summary, motivation, user name. The report is sent, with the success message, only when all four pass |
| `Report.SentReportContents` | Diet_planner/app.py:666-672 | a sent report carries `str()` of the stored name, plan, summary and motivation, and the profile as stored |
| `Report.EvaluationSatisfiesReportCheck` | Diet_planner/app.py:663 | whatever `evaluate_commitment` writes to the tracker store, on success or failure, passes the report's evaluation check |
| `PyValue.Truthy` | Diet_planner/app.py:338-342 | Python's `bool()`: exactly None, False, 0, "" and `{}` are falsy |
| `PyValue.Join` | Diet_planner/app.py:343 | `', '.join(...)`: empty for no parts. Each part sits at its offset: the length of the parts before it plus one separator for each of them. A separator sits right before every part but the first. The length is that of the parts plus one separator between each pair, so nothing else is in the text. The "required fields" message is its prefix followed by this join of the missing fields |
| `PyValue.JoinStep` | Diet_planner/app.py:343 | putting the first part and a separator in front of the joined remaining parts places every part and separator at its offset |
| `PyValue.ToStr` | Diet_planner/app.py:666-670 | `str()`: a string is itself, a number is its decimal digits (with `-` when negative) that read back to it, a boolean is "True" or "False", and None is "None" |
| `Report.DisplayName` | Diet_planner/app.py:567-568 | the title shows the user's name, or "customer" when the name is missing, empty or the guest placeholder. It is never empty and never the guest placeholder |
| `Report.NewlinesToBreaks` | Diet_planner/app.py:570-572 | the substituted text has no newline left and is no shorter than the original |
| `Report.SubstitutionReverses` | Diet_planner/app.py:570-572 | for text with no `<br>` of its own, turning each `<br>` back into a newline restores the original: each tag stands for exactly one newline |
| `Report.Box` | Diet_planner/app.py:570-572 | a content box has no newline, and turns back into its report text (or that text's default) when the text had no `<br>` of its own |
| `Report.ProfileCells` | Diet_planner/app.py:618-627 | ten cells in table order: `str()` of the stored value for a key the profile holds, else "غير متوفر", or "لا يوجد" for allergy and conditions |
| `Report.GenerateHtmlReportContent` | Diet_planner/app.py:565-627 | the title carries the display name. The three content boxes contain no newline. Each box turns back into its report text, or that text's default, when the text had no `<br>` of its own. There are ten profile cells in table order. Each cell of a key the profile holds shows `str()` of the stored value. A key the profile lacks shows "غير متوفر", or "لا يوجد" for allergy and conditions |

## Left out

- Page layouts, style dictionaries and component objects
  (Diet_planner/app.py:55-304): these only build the UI. Only the kinds of
  buttons `create_nav_buttons` lays out are kept. The main layout of `/`
  (Diet_planner/app.py:84-151) has no navigation buttons; only the three
  sub-page layouts call `create_nav_buttons`.
- The agent runs, prompts and the orchestration library: each run is a
  parameter of the callback that starts it. `prepare_inputs` and the agent
  definitions in `agents/meal_planner_agent.py` and
  `agents/motivation_agent.py` are not part of this model. The tracker
  prompt (Diet_planner/agents/tracker_agent.py) only supplies the tier
  ranges.
- Diet_planner/agents/tools.py: an HTTP client for an external recipe API.
- Other callbacks, which only move text between stores and agents:
  `update_welcome_message`, `update_meal_plan_display`,
  `update_planned_meal`, `get_motivation` and `store_motivation_data`.
- `time.sleep(0.3)` in `navigate_next`. The report date and the download
  file name, which read the clock. `dcc.send_bytes` and UTF-8 encoding.
- The Plotly figure beyond its two values, its colour and its centre text:
  labels, hole and layout are not modelled.
- Exceptions: an agent's exception is `Raised(detail)`, and its text goes
  into the error output. The traceback printing is not modelled. Neither are
  the except branches of `generate_html_report_content` and of the file
  step of `download_report`: they guard library calls the model does not
  make.
- Python's `\d` and `int()` also accept non-ASCII digits, and `\s` accepts
  Unicode whitespace. The model reads only ASCII digits. It treats only
  space, tab, line feed, carriage return, vertical tab and form feed as
  whitespace.
- Floating-point values: numbers are integers in this model. A number input
  can hold a float such as 72.5. How a float tests for truth and how
  `str()` spells it are not modelled.
- Report.GenerateHtmlReportContent: a profile cell holding a float (a weight
  of 72.5, say) is not covered, because `str()` of a float (its shortest
  round-trip spelling) is not modelled. The cells are stated for integer,
  string, boolean and `None` values only.
- Tracker.EvaluateCommitment: the digit cap is CPython's default. A
  different `sys.set_int_max_str_digits()` setting, or a Python release
  without the cap, is not modelled. The ValueError text follows CPython
  3.12's wording.
- Decimal.FormatInt: `str()` raises ValueError for an integer of more than
  4300 digits. That cap is not modelled for `str()`: the numbers it writes
  here are read from at most 4300 digits (`Tracker.DisplayWithinLimit`) or
  come from the browser as JSON numbers far below it.
- PyValue.ToStr: `str()` of a nested dictionary (Python's `repr`, in
  insertion order) is not modelled and shows as "{...}". Only the stored
  `user_inputs` of a meal plan is such a value, and no modelled callback
  converts it to text.
- The HTML template outside the texts placed in it. The template escapes
  nothing, and the model claims no escaping.
- `evaluate_commitment`'s external-factors input and the user's name only
  go into the agent's prompt, so they do not appear in the model.

=== FILE: decimal.dfy ===
/** ASCII decimal digits: what Python's `int()` reads from a run of digits and
    what `str()` / an f-string writes for an integer. */
module Decimal {

  predicate IsDigit(c: char) {
    '0' <= c <= '9'
  }

  predicate AllDigits(s: string) {
    forall i :: 0 <= i < |s| ==> IsDigit(s[i])
  }

  function DigitValue(c: char): (d: nat)
    requires IsDigit(c)
    ensures d < 10
  {
    (c as int) - ('0' as int)
  }

  function DigitChar(d: nat): (c: char)
    requires d < 10
    ensures IsDigit(c) && DigitValue(c) == d
  {
    (('0' as int) + d) as char
  }

  /** `int(s)` for a non-empty run of ASCII digits. Leading zeros do not
      change the value, as `int("042") == 42`. */
  function Parse(s: string): (r: nat)
    requires AllDigits(s)
    ensures |s| > 0 && s[0] == '0' ==> r == Parse(s[1..])
  {
    if |s| == 0 then 0
    else
      var init := s[..|s| - 1];
      assert |s| > 1 ==> s[1..][..|s| - 2] == init[1..];
      Parse(init) * 10 + DigitValue(s[|s| - 1])
  }

  /** `str(n)` for a natural number: its shortest decimal spelling. */
  function Format(n: nat): (s: string)
    ensures |s| > 0 && AllDigits(s)
    ensures s[0] == '0' ==> n == 0
    ensures n < 10 ==> |s| == 1
  {
    if n < 10 then [DigitChar(n)] else Format(n / 10) + [DigitChar(n % 10)]
  }

  /** `str(i)` for an integer: a minus sign in front of negative values, and
      no leading zero. Reading the digits back gives the magnitude. */
  function FormatInt(i: int): (s: string)
    ensures i >= 0 ==> |s| > 0 && AllDigits(s) && Parse(s) == i
    ensures i >= 0 && s[0] == '0' ==> i == 0
    ensures i < 0 ==> |s| > 1 && s[0] == '-' && AllDigits(s[1..]) && Parse(s[1..]) == -i
    ensures i < 0 ==> s[1] != '0'
  {
    if i < 0 then
      var t := Format(-i);
      ParseFormat(-i);
      assert ("-" + t)[1..] == t;
      "-" + t
    else
      ParseFormat(i);
      Format(i)
  }

  function Pow10(k: nat): (r: nat)
    ensures r >= 1
  {
    if k == 0 then 1 else 10 * Pow10(k - 1)
  }

  /** `k` digits spell a number below `10^k`. */
  lemma {:induction false} ParseBound(s: string)
    requires AllDigits(s)
    ensures Parse(s) < Pow10(|s|)
  {
    if |s| > 0 {
      ParseBound(s[..|s| - 1]);
    }
  }

  /** A number below `10^k` is written with at most `k` digits. */
  lemma {:induction false} FormatLength(n: nat, k: nat)
    requires k >= 1 && n < Pow10(k)
    ensures |Format(n)| <= k
  {
    if n >= 10 {
      FormatLength(n / 10, k - 1);
    }
  }

  /** Reading back what `str` wrote gives the number again. */
  lemma {:induction false} ParseFormat(n: nat)
    ensures Parse(Format(n)) == n
  {
    if n >= 10 {
      var s := Format(n);
      assert s[..|s| - 1] == Format(n / 10);
      ParseFormat(n / 10);
    }
  }
}

=== FILE: navigation.dfy ===
/** Page navigation over PAGE_ORDER (Diet_planner/app.py:30-52, 311-378):
    routing, the previous / next buttons, the gate that keeps the user on the
    meal-planner page until a plan exists, and the error text shown there. */
module Navigation {
  import opened PyValue
  import opened Validation
  import Profile

  const PageOrder: seq<string> := ["/", "/meal-planner", "/tracker", "/motivation"]

  /** `PAGE_ORDER.index(path)`; `None` where Python raises ValueError. */
  function IndexOf(path: string): (r: Option<nat>)
    ensures r.Some? ==> r.value < |PageOrder| && PageOrder[r.value] == path
    ensures r.None? <==> path !in PageOrder
  {
    if path == PageOrder[0] then Some(0)
    else if path == PageOrder[1] then Some(1)
    else if path == PageOrder[2] then Some(2)
    else if path == PageOrder[3] then Some(3)
    else None
  }

  /** What a navigation callback writes to the URL path: nothing
      (`dash.no_update`), a new value, or nothing because `.index` raised. */
  datatype PathUpdate = NoChange | SetPath(text: string) | NotInPageOrder

  const IncompleteProfile: string := "الرجاء ملء جميع البيانات الأساسية"
  const RequiredPrefix: string := "الحقول التالية مطلوبة: "
  const GeneratePlanFirst: string := "يجب توليد خطة الوجبات أولاً"

  /** The checks both `navigate_next` and `show_navigation_errors` run on the
      meal-planner page, in order. */
  datatype Gate = NoProfile | MissingRequired(fields: seq<string>) | NoPlan | Open

  /** `meal_data and 'meal_plan_text' in meal_data`. */
  predicate HasPlan(meal: Store) {
    StoreTruthy(meal) && "meal_plan_text" in meal.value
  }

  function MealPlannerGate(user: Store, meal: Store): (g: Gate)
    ensures g == NoProfile <==> !StoreTruthy(user)
    ensures StoreTruthy(user) && MissingFields(user.value) != [] ==>
      g == MissingRequired(MissingFields(user.value))
    ensures StoreTruthy(user) && MissingFields(user.value) == [] && !HasPlan(meal) ==> g == NoPlan
    ensures g.MissingRequired? ==> |g.fields| > 0
    ensures g == Open <==> StoreTruthy(user) && MissingFields(user.value) == [] && HasPlan(meal)
  {
    if !StoreTruthy(user) then NoProfile
    else
      var missing := MissingFields(user.value);
      if missing != [] then MissingRequired(missing)
      else if !HasPlan(meal) then NoPlan
      else Open
  }

  function RequiredMessage(fields: seq<string>): string {
    RequiredPrefix + Join(", ", fields)
  }

  /** `navigate_next`. A failed gate writes its message into the URL path. */
  function NavigateNext(nClicks: Value, path: string, user: Store, meal: Store): (r: PathUpdate)
    ensures !Truthy(nClicks) ==> r == NoChange
    ensures r == NotInPageOrder <==> Truthy(nClicks) && path !in PageOrder
    ensures r.SetPath? && r.text in PageOrder ==>
      path in PageOrder && IndexOf(r.text).value == IndexOf(path).value + 1
  {
    if !Truthy(nClicks) then NoChange
    else
      var gate := if path == "/meal-planner" then MealPlannerGate(user, meal) else Open;
      match gate
      case NoProfile => NoChange
      case MissingRequired(fields) => SetPath(RequiredMessage(fields))
      case NoPlan => SetPath(GeneratePlanFirst)
      case Open =>
        match IndexOf(path)
        case None => NotInPageOrder
        case Some(i) => if i < |PageOrder| - 1 then SetPath(PageOrder[i + 1]) else NoChange
  }

  /** `navigate_prev`. */
  function NavigatePrev(nClicks: Value, path: string): (r: PathUpdate)
    ensures r == NotInPageOrder <==> Truthy(nClicks) && path !in PageOrder
    ensures r == NoChange <==> !Truthy(nClicks) || path == PageOrder[0]
    ensures r.SetPath? ==>
      path in PageOrder && r.text in PageOrder && IndexOf(r.text).value + 1 == IndexOf(path).value
  {
    if !Truthy(nClicks) then NoChange
    else
      match IndexOf(path)
      case None => NotInPageOrder
      case Some(i) => if i > 0 then SetPath(PageOrder[i - 1]) else NoChange
  }

  /** `show_navigation_errors`: the text shown under the meal-planner form. */
  function ShowNavigationErrors(nClicks: Value, path: string, user: Store, meal: Store): (r: string)
    ensures r == "" <==>
      !Truthy(nClicks) || path != "/meal-planner" || MealPlannerGate(user, meal) == Open
  {
    if Truthy(nClicks) && path == "/meal-planner" then
      match MealPlannerGate(user, meal)
      case NoProfile => IncompleteProfile
      case MissingRequired(fields) => RequiredMessage(fields)
      case NoPlan => GeneratePlanFirst
      case Open => ""
    else ""
  }

  /** No gate message can be mistaken for a page path. */
  lemma GateMessagesAreNotPages(fields: seq<string>)
    ensures RequiredMessage(fields) !in PageOrder && GeneratePlanFirst !in PageOrder
  {
  }

  /** Away from the meal-planner page, `navigate_next` moves one page on and
      stops at the last page. */
  lemma NextOffGate(nClicks: Value, i: nat, user: Store, meal: Store)
    requires Truthy(nClicks) && i < |PageOrder| && PageOrder[i] != "/meal-planner"
    ensures i + 1 < |PageOrder| ==> NavigateNext(nClicks, PageOrder[i], user, meal) == SetPath(PageOrder[i + 1])
    ensures i + 1 == |PageOrder| ==> NavigateNext(nClicks, PageOrder[i], user, meal) == NoChange
  {
  }

  /** `navigate_prev` moves one page back and stays on the first page. */
  lemma PrevSteps(nClicks: Value, i: nat)
    requires Truthy(nClicks) && i < |PageOrder|
    ensures i > 0 ==> NavigatePrev(nClicks, PageOrder[i]) == SetPath(PageOrder[i - 1])
    ensures i == 0 ==> NavigatePrev(nClicks, PageOrder[i]) == NoChange
  {
  }

  /** Going back undoes going forward. */
  lemma PrevUndoesNext(nClicks: Value, path: string, user: Store, meal: Store)
    requires NavigateNext(nClicks, path, user, meal).SetPath?
    requires NavigateNext(nClicks, path, user, meal).text in PageOrder
    ensures NavigatePrev(nClicks, NavigateNext(nClicks, path, user, meal).text) == SetPath(path)
  {
  }

  /** Going forward undoes going back, except that the meal-planner page
      only lets the user forward when its gate is open. */
  lemma NextUndoesPrev(nClicks: Value, path: string, user: Store, meal: Store)
    requires NavigatePrev(nClicks, path).SetPath?
    requires var back := NavigatePrev(nClicks, path).text;
      back != "/meal-planner" || MealPlannerGate(user, meal) == Open
    ensures NavigateNext(nClicks, NavigatePrev(nClicks, path).text, user, meal) == SetPath(path)
  {
  }

  /** On the meal-planner page the two callbacks agree: the page changes
      (to the tracker) exactly when no error is shown, and a gate message
      written into the path is the one shown; only an empty profile is
      treated differently (no move, a generic message). */
  lemma GateAgreement(nClicks: Value, user: Store, meal: Store)
    requires Truthy(nClicks)
    ensures var next := NavigateNext(nClicks, "/meal-planner", user, meal);
      var shown := ShowNavigationErrors(nClicks, "/meal-planner", user, meal);
      && (next == SetPath("/tracker") <==> shown == "")
      && (next.SetPath? && next.text != "/tracker" ==> shown == next.text)
      && (next == NoChange <==> !StoreTruthy(user))
      && (!StoreTruthy(user) ==> shown == IncompleteProfile)
  {
  }

  /** Leaving the meal-planner page forward needs every required field and a
      generated plan; the error text lists exactly the missing fields. */
  lemma LeaveMealPlanner(nClicks: Value, user: Store, meal: Store)
    requires Truthy(nClicks)
    ensures NavigateNext(nClicks, "/meal-planner", user, meal) == SetPath("/tracker") <==>
      StoreTruthy(user) && AllRequiredPresent(user.value) && HasPlan(meal)
    ensures StoreTruthy(user) && MissingFields(user.value) != [] ==>
      NavigateNext(nClicks, "/meal-planner", user, meal) == SetPath(RequiredMessage(MissingFields(user.value)))
    ensures StoreTruthy(user) && AllRequiredPresent(user.value) && !HasPlan(meal) ==>
      && NavigateNext(nClicks, "/meal-planner", user, meal) == SetPath(GeneratePlanFirst)
      && ShowNavigationErrors(nClicks, "/meal-planner", user, meal) == GeneratePlanFirst
  {
    if StoreTruthy(user) {
      MissingEmptyIffAllPresent(user.value);
      GateMessagesAreNotPages(MissingFields(user.value));
    }
    GateMessagesAreNotPages([]);
  }

  /** A plan `generate_meal_plan` stored opens the gate for any complete
      profile. */
  lemma GeneratedPlanOpensGate(nClicks: Value, inp: Profile.FormInputs, reply: AgentReply,
                               timestamp: string, user: Store)
    requires var o := GenerateMealPlan(nClicks, inp, reply, timestamp);
      o.data.Set? && o.data.value != map[]
    requires StoreTruthy(user) && AllRequiredPresent(user.value)
    ensures MealPlannerGate(user, Some(GenerateMealPlan(nClicks, inp, reply, timestamp).data.value)) == Open
  {
    MissingEmptyIffAllPresent(user.value);
  }

  /** The buttons `create_nav_buttons` lays out, in order. */
  datatype NavButton = Previous | Next | HomeLink

  function ButtonRank(b: NavButton): nat {
    match b
    case Previous => 0
    case Next => 1
    case HomeLink => 2
  }

  /** `create_nav_buttons`; `None` where `.index` raises. */
  function CreateNavButtons(path: string): (r: Option<seq<NavButton>>)
    ensures r.Some? <==> path in PageOrder
    ensures r.Some? ==> (Previous in r.value <==> IndexOf(path).value > 0)
    ensures r.Some? ==> (Next in r.value <==> IndexOf(path).value < |PageOrder| - 1)
    ensures r.Some? ==> (HomeLink in r.value <==> path == "/motivation")
    ensures r.Some? ==> forall a, b :: 0 <= a < b < |r.value| ==> ButtonRank(r.value[a]) < ButtonRank(r.value[b])
  {
    match IndexOf(path)
    case None => None
    case Some(i) =>
      var prev := if i > 0 then [Previous] else [];
      var next := if i < |PageOrder| - 1 then [Next] else [];
      var home := if path == "/motivation" then [HomeLink] else [];
      Some(prev + next + home)
  }

  /** On the three sub-pages, the only layouts that call `create_nav_buttons`,
      a button is shown exactly when pressing it moves the user: "previous"
      always, "next" on every page but the meal-planner page, where it moves
      once the gate is open. */
  lemma ButtonsMatchNavigation(nClicks: Value, path: string, user: Store, meal: Store)
    requires Truthy(nClicks) && path in PageOrder[1..]
    requires path != "/meal-planner" || MealPlannerGate(user, meal) == Open
    ensures var buttons := CreateNavButtons(path).value;
      && (Previous in buttons <==> NavigatePrev(nClicks, path).SetPath?)
      && (Next in buttons <==> NavigateNext(nClicks, path, user, meal).SetPath?)
  {
  }

  /** The layouts `display_page` chooses from. */
  datatype Layout = MainLayout | MealPlannerLayout | TrackerLayout | MotivationLayout

  /** The layout of each page in PAGE_ORDER, in the same order. */
  const LayoutOrder: seq<Layout> := [MainLayout, MealPlannerLayout, TrackerLayout, MotivationLayout]

  /** `display_page`. */
  function DisplayPage(path: string): (l: Layout)
    ensures l == MainLayout <==> path !in PageOrder[1..]
  {
    if path == "/meal-planner" then MealPlannerLayout
    else if path == "/tracker" then TrackerLayout
    else if path == "/motivation" then MotivationLayout
    else MainLayout
  }

  /** Each page of PAGE_ORDER gets its own layout, and every other path
      (the root and anything unknown) gets the main one. */
  lemma RoutingFollowsPageOrder(path: string)
    ensures path in PageOrder ==> DisplayPage(path) == LayoutOrder[IndexOf(path).value]
    ensures path !in PageOrder ==> DisplayPage(path) == MainLayout
  {
  }
}

=== FILE: percentage.dfy ===
/** The adherence percentage read out of the tracker's free-text reply
    (Diet_planner/app.py:485-490): the first `(\d+)%` match, else digits at the
    start after optional whitespace, else 0. Digits and whitespace are ASCII. */
module Percentage {
  import opened Decimal
  import opened PyValue

  /** The characters `\s` matches in this model: space, tab, LF, CR, VT, FF. */
  predicate IsSpace(c: char) {
    c == ' ' || c == '\t' || c == '\n' || c == '\r' || c == '\U{000B}' || c == '\U{000C}'
  }

  /** Every position in `[i, e)` holds a digit. */
  ghost predicate DigitsIn(s: string, i: int, e: int)
    requires 0 <= i <= e <= |s|
  {
    forall k :: i <= k < e ==> IsDigit(s[k])
  }

  lemma DigitsInSlice(s: string, i: int, e: int)
    requires 0 <= i <= e <= |s|
    ensures DigitsIn(s, i, e) <==> AllDigits(s[i..e])
  {
    if DigitsIn(s, i, e) {
      forall k | 0 <= k < e - i ensures IsDigit(s[i..e][k]) {
        assert s[i..e][k] == s[i + k];
      }
    }
    if AllDigits(s[i..e]) {
      forall k | i <= k < e ensures IsDigit(s[k]) {
        assert s[k] == s[i..e][k - i];
      }
    }
  }

  /** End of the longest digit run starting at `i` (a greedy `\d*`). */
  function RunEnd(s: string, i: nat): (e: nat)
    requires i <= |s|
    ensures i <= e <= |s| && DigitsIn(s, i, e)
    ensures e == |s| || !IsDigit(s[e])
    decreases |s| - i
  {
    if i < |s| && IsDigit(s[i]) then RunEnd(s, i + 1) else i
  }

  /** End of the longest whitespace run starting at `i` (a greedy `\s*`). */
  function SkipSpace(s: string, i: nat): (w: nat)
    requires i <= |s|
    ensures i <= w <= |s| && forall k :: i <= k < w ==> IsSpace(s[k])
    ensures w == |s| || !IsSpace(s[w])
    decreases |s| - i
  {
    if i < |s| && IsSpace(s[i]) then SkipSpace(s, i + 1) else i
  }

  /** A matched group `s[start..end]`; for `(\d+)%` the `%` sits at `end`. */
  datatype Match = Match(start: nat, end: nat)

  /** `(\d+)%` matches at `i` with its group ending at `e`, for some way of
      matching `\d+` (greedy or backtracked). */
  ghost predicate MatchesAt(s: string, i: int, e: int) {
    0 <= i < e < |s| && DigitsIn(s, i, e) && s[e] == '%'
  }

  /** Backtracking buys nothing: the only way `\d+` can be followed by `%` is
      to take the whole digit run. */
  lemma OnlyGreedyMatches(s: string, i: nat, e: int)
    requires i <= |s| && MatchesAt(s, i, e)
    ensures e == RunEnd(s, i)
  {
  }

  /** `re.search` started at `i`: the leftmost position from which
      `(\d+)%` matches. */
  function SearchFrom(s: string, i: nat): (m: Option<Match>)
    requires i <= |s|
    ensures m.Some? ==> i <= m.value.start && MatchesAt(s, m.value.start, m.value.end)
    ensures m.Some? ==> forall k, e :: i <= k < m.value.start ==> !MatchesAt(s, k, e)
    ensures m.None? ==> forall k, e :: i <= k ==> !MatchesAt(s, k, e)
    decreases |s| - i
  {
    if i == |s| then None
    else
      var e := RunEnd(s, i);
      if i < e < |s| && s[e] == '%' then Some(Match(i, e))
      else SearchFrom(s, i + 1)
  }

  /** `re.search(r'(\d+)%', s)`: the leftmost match, or none anywhere. */
  function Search(s: string): (m: Option<Match>)
    ensures m.Some? ==> MatchesAt(s, m.value.start, m.value.end)
    ensures m.Some? ==> forall k, e :: 0 <= k < m.value.start ==> !MatchesAt(s, k, e)
    ensures m.None? ==> forall k, e :: !MatchesAt(s, k, e)
  {
    SearchFrom(s, 0)
  }

  /** The value `int()` gives the digits in `s[i..e]`. */
  function RunValue(s: string, i: nat, e: nat): nat
    requires i <= e <= |s| && DigitsIn(s, i, e)
  {
    DigitsInSlice(s, i, e);
    Parse(s[i..e])
  }

  /** Every character before `w` is whitespace. */
  ghost predicate LeadingSpace(s: string, w: int) {
    0 <= w <= |s| && forall k :: 0 <= k < w ==> IsSpace(s[k])
  }

  /** `s[w..e]` is a maximal digit run right after the leading whitespace. */
  ghost predicate LeadingRun(s: string, w: int, e: int) {
    w < e <= |s| && LeadingSpace(s, w) && DigitsIn(s, w, e) && (e == |s| || !IsDigit(s[e]))
  }

  /** The digit run `^\s*(\d*)` reaches: it starts after the leading
      whitespace and may be empty. */
  function LeadingGroup(s: string): (g: Match)
    ensures g.start <= g.end <= |s| && DigitsIn(s, g.start, g.end)
  {
    var w := SkipSpace(s, 0);
    Match(w, RunEnd(s, w))
  }

  /** `re.match(r'^\s*(\d+)', s)`, already read by `int()`: the value of the
      digit run after the leading whitespace, and none when no digit follows
      that whitespace. */
  function LeadingNumber(s: string): (r: Option<nat>)
    ensures forall w, e :: LeadingRun(s, w, e) ==> r == Some(RunValue(s, w, e))
    ensures r.None? <==> forall w :: 0 <= w < |s| && LeadingSpace(s, w) ==> !IsDigit(s[w])
  {
    var g := LeadingGroup(s);
    if g.start < g.end then Some(RunValue(s, g.start, g.end)) else None
  }

  /** How many digits the selected group hands to `int()`: the `(\d+)%`
      group, else the `^\s*(\d+)` group, else none. */
  function DigitCount(raw: string): (n: nat)
    ensures n <= |raw|
  {
    match Search(raw)
    case Some(m) => m.end - m.start
    case None => LeadingGroup(raw).end - LeadingGroup(raw).start
  }

  /** The percentage `evaluate_commitment` extracts from the tracker reply.
      It has no more digits than the group it was read from, and a reply
      without any digit gives 0. */
  function ParsePercentage(raw: string): (p: nat)
    ensures p < Pow10(DigitCount(raw))
    ensures (forall k :: 0 <= k < |raw| ==> !IsDigit(raw[k])) ==> p == 0
  {
    match Search(raw)
    case Some(m) =>
      DigitsInSlice(raw, m.start, m.end);
      ParseBound(raw[m.start..m.end]);
      RunValue(raw, m.start, m.end)
    case None =>
      var g := LeadingGroup(raw);
      DigitsInSlice(raw, g.start, g.end);
      ParseBound(raw[g.start..g.end]);
      match LeadingNumber(raw)
      case Some(n) => n
      case None => 0
  }

  // ---------------------------------------------------------------------
  // A declarative reading of the parser, in terms of the text alone.

  /** Position `j` holds a `%` right after a digit. */
  ghost predicate PercentAfterDigit(s: string, j: int) {
    0 < j < |s| && s[j] == '%' && IsDigit(s[j - 1])
  }

  /** Start of the longest digit run that ends just before `j`. */
  function RunStart(s: string, j: nat): (a: nat)
    requires j <= |s|
    ensures a <= j && DigitsIn(s, a, j)
    ensures a == 0 || !IsDigit(s[a - 1])
  {
    if j == 0 || !IsDigit(s[j - 1]) then j else RunStart(s, j - 1)
  }

  /** A digit run that cannot be extended to the left is the run `RunStart` finds. */
  lemma RunStartIsMaximal(s: string, a: nat, j: nat)
    requires a <= j <= |s| && DigitsIn(s, a, j)
    requires a == 0 || !IsDigit(s[a - 1])
    ensures RunStart(s, j) == a
    decreases j
  {
    if j > a {
      RunStartIsMaximal(s, a, j - 1);
    }
  }

  /** If some `%` follows a digit, the result is the value of the whole digit
      run before the first such `%`. */
  lemma {:induction false} FirstPercentRule(s: string, j: nat)
    requires PercentAfterDigit(s, j)
    requires forall k :: 0 <= k < j ==> !PercentAfterDigit(s, k)
    ensures ParsePercentage(s) == RunValue(s, RunStart(s, j), j)
    ensures DigitCount(s) == j - RunStart(s, j)
  {
    var a := RunStart(s, j);
    assert MatchesAt(s, a, j);
    var m := Search(s).value;
    assert PercentAfterDigit(s, m.end);
  }

  /** Without any `%` after a digit, digits right after the leading whitespace
      are read. */
  lemma {:induction false} LeadingDigitsRule(s: string, w: nat, e: nat)
    requires forall j :: !PercentAfterDigit(s, j)
    requires w < e <= |s| && DigitsIn(s, w, e)
    requires forall k :: 0 <= k < w ==> IsSpace(s[k])
    requires e == |s| || !IsDigit(s[e])
    ensures ParsePercentage(s) == RunValue(s, w, e)
    ensures DigitCount(s) == e - w
  {
    if Search(s).Some? {
      var m := Search(s).value;
      assert PercentAfterDigit(s, m.end);
    }
    assert !IsSpace(s[w]);
  }

  /** Otherwise the result is 0. */
  lemma {:induction false} NoNumberRule(s: string)
    requires forall j :: !PercentAfterDigit(s, j)
    requires forall w :: 0 <= w < |s| && (forall k :: 0 <= k < w ==> IsSpace(s[k])) ==> !IsDigit(s[w])
    ensures ParsePercentage(s) == 0
  {
    if Search(s).Some? {
      var m := Search(s).value;
      assert PercentAfterDigit(s, m.end);
    }
  }

  /** The result is not capped at 100. */
  lemma NotClamped()
    ensures ParsePercentage("150%") == 150
  {
    var s := "150%";
    assert PercentAfterDigit(s, 3);
    FirstPercentRule(s, 3);
    RunStartIsMaximal(s, 0, 3);
    assert s[0..3] == Format(150);
    ParseFormat(150);
  }
}

=== FILE: profile.dfy ===
/** The user-profile store and the form-state merge `update_user_data`
    (Diet_planner/app.py:389-401). */
module Profile {
  import opened PyValue

  /** The ten form inputs, in the callback's argument order; `Null` is an
      input that has not been set (Python `None`). */
  datatype FormInputs = FormInputs(
    name: Value, weight: Value, height: Value, age: Value, sex: Value,
    activity: Value, goal: Value, diet: Value, allergy: Value, conditions: Value)

  const GuestName: string := "الزائر"
  const DefaultDiet: string := "عادي"
  const NoneGiven: string := "لا يوجد"

  /** The store keys the form writes; two inputs are stored under a longer
      name (`activity` as `activity_level`, `diet` as `diet_type`). */
  const FormKeys: set<string> := {"name", "weight", "height", "age", "sex",
    "activity_level", "goal", "diet_type", "allergy", "conditions"}

  /** The input that feeds store key `k` (`Null` for keys the form does not
      write). */
  function InputFor(inp: FormInputs, k: string): (v: Value)
    ensures k !in FormKeys ==> v == Null
  {
    if k == "name" then inp.name
    else if k == "weight" then inp.weight
    else if k == "height" then inp.height
    else if k == "age" then inp.age
    else if k == "sex" then inp.sex
    else if k == "activity_level" then inp.activity
    else if k == "goal" then inp.goal
    else if k == "diet_type" then inp.diet
    else if k == "allergy" then inp.allergy
    else if k == "conditions" then inp.conditions
    else Null
  }

  /** The fallback used for a falsy value under `k`, if `k` has one. */
  function DefaultFor(k: string): Option<string> {
    if k == "diet_type" then Some(DefaultDiet)
    else if k == "allergy" || k == "conditions" then Some(NoneGiven)
    else None
  }

  /** `v or default`. */
  function Or(v: Value, default: string): Value {
    if Truthy(v) then v else Str(default)
  }

  /** One line of the callback: `if v is not None: d[k] = v`, or
      `d[k] = v or default` for the keys with a fallback. */
  function Put(d: Dict, k: string, v: Value, default: Option<string>): Dict {
    if v.Null? then d
    else match default
      case Some(text) => d[k := Or(v, text)]
      case None => d[k := v]
  }

  /** `d.get(k)` that still tells an absent key from a stored `None`. */
  function Entry(d: Dict, k: string): Option<Value> {
    if k in d then Some(d[k]) else None
  }

  lemma PutEntry(d: Dict, k: string, v: Value, default: Option<string>, k': string)
    ensures Entry(Put(d, k, v, default), k') ==
      if k' != k || v.Null? then Entry(d, k')
      else if default.Some? then Some(Or(v, default.value)) else Some(v)
  {
  }

  /** `current.copy() if current else {}`. */
  function Base(current: Store): Dict {
    if StoreTruthy(current) then current.value else map[]
  }

  /** `update_user_data`, line by line as the callback writes it. Key by
      key, the result is the merge `MergedEntry` describes. */
  function UpdateUserData(inp: FormInputs, current: Store): (r: Dict)
    ensures forall k :: Entry(r, k) == MergedEntry(inp, Base(current), k)
  {
    var d0 := Base(current);
    var d1 := Put(d0, "name", inp.name, None);
    var d2 := Put(d1, "weight", inp.weight, None);
    var d3 := Put(d2, "height", inp.height, None);
    var d4 := Put(d3, "age", inp.age, None);
    var d5 := Put(d4, "sex", inp.sex, None);
    var d6 := Put(d5, "activity_level", inp.activity, None);
    var d7 := Put(d6, "goal", inp.goal, None);
    var d8 := Put(d7, "diet_type", inp.diet, Some(DefaultDiet));
    var d9 := Put(d8, "allergy", inp.allergy, Some(NoneGiven));
    var d10 := Put(d9, "conditions", inp.conditions, Some(NoneGiven));
    assert forall k :: Entry(d10, k) == MergedEntry(inp, d0, k) by {
      forall k ensures Entry(d10, k) == MergedEntry(inp, d0, k) {
        PutEntry(d0, "name", inp.name, None, k);
        PutEntry(d1, "weight", inp.weight, None, k);
        PutEntry(d2, "height", inp.height, None, k);
        PutEntry(d3, "age", inp.age, None, k);
        PutEntry(d4, "sex", inp.sex, None, k);
        PutEntry(d5, "activity_level", inp.activity, None, k);
        PutEntry(d6, "goal", inp.goal, None, k);
        PutEntry(d7, "diet_type", inp.diet, Some(DefaultDiet), k);
        PutEntry(d8, "allergy", inp.allergy, Some(NoneGiven), k);
        PutEntry(d9, "conditions", inp.conditions, Some(NoneGiven), k);
      }
    }
    d10
  }

  /** What key `k` holds after the merge, stated key by key: an input that is
      `None` leaves the entry as it was (present or absent); any other input
      is stored, falling back to the key's default when it is falsy. */
  ghost function MergedEntry(inp: FormInputs, base: Dict, k: string): Option<Value> {
    var v := InputFor(inp, k);
    if v.Null? then Entry(base, k)
    else match DefaultFor(k)
      case Some(default) => Some(Or(v, default))
      case None => Some(v)
  }

  /** A given input for a key without a fallback is stored as it is. */
  lemma GivenInputStored(inp: FormInputs, current: Store, k: string)
    requires k in FormKeys && DefaultFor(k).None? && !InputFor(inp, k).Null?
    ensures var r := UpdateUserData(inp, current);
      k in r && r[k] == InputFor(inp, k)
  {
    assert Entry(UpdateUserData(inp, current), k) == MergedEntry(inp, Base(current), k);
  }

  /** Keys outside the form's ten are carried over untouched. */
  lemma OtherKeysUntouched(inp: FormInputs, current: Store, k: string)
    requires k !in FormKeys
    ensures Entry(UpdateUserData(inp, current), k) == Entry(Base(current), k)
  {
  }

  /** Two dictionaries that agree on every key are equal. */
  lemma EntriesDetermine(a: Dict, b: Dict)
    requires forall k :: Entry(a, k) == Entry(b, k)
    ensures a == b
  {
    assert forall k :: k in a <==> k in b by {
      forall k ensures k in a <==> k in b {
        assert Entry(a, k) == Entry(b, k);
      }
    }
    assert forall k :: k in a ==> a[k] == b[k] by {
      forall k | k in a ensures a[k] == b[k] {
        assert Entry(a, k) == Entry(b, k);
      }
    }
  }

  /** The merge is idempotent: feeding the same inputs again changes nothing. */
  lemma {:induction false} UpdateUserDataIdempotent(inp: FormInputs, current: Store)
    ensures var r := UpdateUserData(inp, current);
      UpdateUserData(inp, Some(r)) == r
  {
    var r := UpdateUserData(inp, current);
    var r2 := UpdateUserData(inp, Some(r));
    assert Base(Some(r)) == r;
    forall k ensures Entry(r2, k) == Entry(r, k) {
      assert Entry(r, k) == MergedEntry(inp, Base(current), k);
      assert Entry(r2, k) == MergedEntry(inp, r, k);
    }
    EntriesDetermine(r2, r);
  }

  /** A falsy diet, allergy or conditions input never reaches the store:
      the default is stored instead. */
  lemma DefaultsReplaceFalsy(inp: FormInputs, current: Store)
    ensures var r := UpdateUserData(inp, current);
      && (!inp.diet.Null? && !Truthy(inp.diet) ==> r["diet_type"] == Str(DefaultDiet))
      && (!inp.allergy.Null? && !Truthy(inp.allergy) ==> r["allergy"] == Str(NoneGiven))
      && (!inp.conditions.Null? && !Truthy(inp.conditions) ==> r["conditions"] == Str(NoneGiven))
  {
  }
}

=== FILE: py_value.dfy ===
/** The Python values the callbacks exchange through the browser-side stores:
    JSON-like scalars and dictionaries, with Python's truthiness. */
module PyValue {
  import Decimal

  datatype Option<+T> = None | Some(value: T)

  /** A Python value. Numbers are integers: a float form value such as 72.5
      has no counterpart here. */
  datatype Value =
    | Null
    | Bool(b: bool)
    | Num(n: int)
    | Str(s: string)
    | Nested(d: map<string, Value>)

  type Dict = map<string, Value>

  /** The data of a store: JSON `null` or a dictionary. */
  type Store = Option<Dict>

  /** A callback output: `dash.no_update` or a new value. */
  datatype Update<+T> = NoUpdate | Set(value: T)

  /** What a language-model agent run hands back: its raw text, or the
      message of the exception it raised. */
  datatype AgentReply = Completed(raw: string) | Raised(detail: string)

  /** Python's `bool(v)`: exactly None, False, 0, "" and {} are falsy. */
  predicate Truthy(v: Value): (b: bool)
    ensures !b <==> v in {Null, Bool(false), Num(0), Str(""), Nested(map[])}
  {
    match v
    case Null => false
    case Bool(b) => b
    case Num(n) => n != 0
    case Str(s) => |s| > 0
    case Nested(d) => |d| > 0
  }

  /** `d.get(k)`. */
  function Get(d: Dict, k: string): Value {
    if k in d then d[k] else Null
  }

  /** `d.get(k, default)`. */
  function GetOr(d: Dict, k: string, default: Value): Value {
    if k in d then d[k] else default
  }

  /** `bool(data)` for a store: neither None nor an empty dictionary. */
  predicate StoreTruthy(st: Store) {
    st.Some? && |st.value| > 0
  }

  /** The combined length of the parts. */
  function TotalLength(parts: seq<string>): nat {
    if |parts| == 0 then 0 else |parts[0]| + TotalLength(parts[1..])
  }

  /** Where part `i` starts in `sep.join(parts)`: after the parts before it
      and one separator behind each of them. */
  function JoinOffset(sep: string, parts: seq<string>, i: nat): nat
    requires i <= |parts|
  {
    TotalLength(parts[..i]) + i * |sep|
  }

  /** Dropping the first part moves every later offset back by that part
      and one separator. */
  lemma OffsetStep(sep: string, parts: seq<string>, i: nat)
    requires 1 <= i <= |parts|
    ensures JoinOffset(sep, parts, i) == |parts[0]| + |sep| + JoinOffset(sep, parts[1..], i - 1)
  {
    assert parts[..i][1..] == parts[1..][..i - 1];
    assert i * |sep| == |sep| + (i - 1) * |sep|;
  }

  lemma ShiftSlice(x: string, rest: string, a: nat, b: nat)
    requires a <= b <= |rest|
    ensures (x + rest)[|x| + a..|x| + b] == rest[a..b]
  {
  }

  /** Each part sits in `r` at its offset. */
  predicate PartsAt(sep: string, parts: seq<string>, r: string) {
    forall i :: 0 <= i < |parts| ==>
      var o := JoinOffset(sep, parts, i);
      o + |parts[i]| <= |r| && r[o..o + |parts[i]|] == parts[i]
  }

  /** A separator sits in `r` right before each part but the first. */
  predicate SepsAt(sep: string, parts: seq<string>, r: string) {
    forall i :: 0 < i < |parts| ==>
      var o := JoinOffset(sep, parts, i);
      |sep| <= o <= |r| && r[o - |sep|..o] == sep
  }

  /** Putting the first part and a separator in front of a joined tail
      places every part and separator at its offset. */
  lemma {:induction false} JoinStep(sep: string, parts: seq<string>, rest: string)
    requires |parts| >= 2 && PartsAt(sep, parts[1..], rest) && SepsAt(sep, parts[1..], rest)
    ensures PartsAt(sep, parts, parts[0] + sep + rest) && SepsAt(sep, parts, parts[0] + sep + rest)
  {
    var x := parts[0] + sep;
    var r := x + rest;
    assert r == parts[0] + sep + rest;
    assert TotalLength(parts[..0]) == 0;
    assert r[..|parts[0]|] == parts[0];
    forall i | 1 <= i < |parts|
      ensures var o := JoinOffset(sep, parts, i);
        o + |parts[i]| <= |r| && r[o..o + |parts[i]|] == parts[i]
    {
      OffsetStep(sep, parts, i);
      var o' := JoinOffset(sep, parts[1..], i - 1);
      assert parts[1..][i - 1] == parts[i];
      ShiftSlice(x, rest, o', o' + |parts[i]|);
    }
    forall i | 1 <= i < |parts|
      ensures var o := JoinOffset(sep, parts, i);
        |sep| <= o <= |r| && r[o - |sep|..o] == sep
    {
      OffsetStep(sep, parts, i);
      var o' := JoinOffset(sep, parts[1..], i - 1);
      if i == 1 {
        assert r[|parts[0]|..|x|] == sep;
      } else {
        ShiftSlice(x, rest, o' - |sep|, o');
      }
    }
  }

  /** `sep.join(parts)`: the parts in order, one separator between each
      neighbouring pair and none at either end. */
  function Join(sep: string, parts: seq<string>): (r: string)
    ensures |parts| == 0 ==> r == ""
    ensures |parts| > 0 ==> |r| == TotalLength(parts) + |sep| * (|parts| - 1)
    ensures PartsAt(sep, parts, r)
    ensures SepsAt(sep, parts, r)
  {
    if |parts| == 0 then ""
    else if |parts| == 1 then
      assert parts[..1] == [parts[0]];
      assert TotalLength(parts[..1]) == |parts[0]|;
      parts[0]
    else
      var rest := Join(sep, parts[1..]);
      assert |parts[0] + sep + rest| == TotalLength(parts) + |sep| * (|parts| - 1) by {
        assert |sep| * (|parts| - 1) == |sep| + |sep| * (|parts| - 2);
      }
      JoinStep(sep, parts, rest);
      parts[0] + sep + rest
  }

  /** `str(v)` for the scalar values; a dictionary is shown as "{...}". */
  function ToStr(v: Value): (r: string)
    ensures v.Str? ==> r == v.s
    ensures v.Num? && v.n >= 0 ==> Decimal.AllDigits(r) && Decimal.Parse(r) == v.n
    ensures v.Num? && v.n < 0 ==> |r| > 1 && r[0] == '-' && Decimal.AllDigits(r[1..]) && Decimal.Parse(r[1..]) == -v.n
    ensures v.Bool? ==> (r == "True" <==> v.b) && (r == "False" <==> !v.b)
    ensures v.Null? ==> r == "None"
  {
    match v
    case Null => "None"
    case Bool(b) => if b then "True" else "False"
    case Num(n) => Decimal.FormatInt(n)
    case Str(s) => s
    case Nested(_) => "{...}"
  }
}

=== FILE: report.dfy ===
/** The downloadable report: the guard chain of `download_report`
    (Diet_planner/app.py:660-680) and the text rules of
    `generate_html_report_content` (Diet_planner/app.py:565-647). */
module Report {
  import opened PyValue
  import opened Profile
  import Tracker

  /** The `report_data` dictionary; `None` marks a key it lacks. */
  datatype ReportData = ReportData(
    username: Option<string>,
    mealPlan: Option<string>,
    trackerSummary: Option<string>,
    motivation: Option<string>,
    userProfile: Dict)

  /** The first output of `download_report`: unchanged, cleared (`None`), or
      the file built from the report data. */
  datatype Download = Unchanged | Cleared | Sent(report: ReportData)

  const NeedPlan: string := "الرجاء توليد خطة الوجبات أولاً."
  const NeedEvaluation: string := "الرجاء تقييم الالتزام أولاً."
  const NeedMotivation: string := "الرجاء الحصول على التحفيز أولاً."
  const NeedName: string := "الرجاء إدخال بيانات المستخدم (خاصة الاسم) أولاً."
  const ReportReady: string := "تم إنشاء التقرير بنجاح!"

  /** `st and st.get(key)`: the store holds a truthy value under `key`. */
  predicate Has(st: Store, key: string) {
    StoreTruthy(st) && Truthy(Get(st.value, key))
  }

  /** `download_report`, guard by guard. */
  function DownloadReport(nClicks: Value, meal: Store, tracker: Store,
                          motivation: Store, user: Store): (r: (Download, string))
    ensures r.0 == Unchanged <==> !Truthy(nClicks)
    ensures r.0.Sent? <==>
      Truthy(nClicks) && Has(meal, "meal_plan_text") && Has(tracker, "summary") && Has(motivation, "motivation_text") && Has(user, "name")
    ensures r.0.Sent? ==> r.1 == ReportReady && r.0.report.userProfile == user.value
    ensures r.0 == Cleared ==> r.1 in [NeedPlan, NeedEvaluation, NeedMotivation, NeedName]
  {
    if !Truthy(nClicks) then (Unchanged, "")
    else if !Has(meal, "meal_plan_text") then (Cleared, NeedPlan)
    else if !Has(tracker, "summary") then (Cleared, NeedEvaluation)
    else if !Has(motivation, "motivation_text") then (Cleared, NeedMotivation)
    else if !Has(user, "name") then (Cleared, NeedName)
    else
      var data := ReportData(
        Some(ToStr(GetOr(user.value, "name", Str(GuestName)))),
        Some(ToStr(GetOr(meal.value, "meal_plan_text", Str(NoPlanText)))),
        Some(ToStr(GetOr(tracker.value, "summary", Str(NoEvaluationText)))),
        Some(ToStr(GetOr(motivation.value, "motivation_text", Str(NoMotivationText)))),
        user.value);
      (Sent(data), ReportReady)
  }

  /** The four checks in the order `download_report` runs them, each with the
      message it shows when it fails. */
  function Checks(meal: Store, tracker: Store, motivation: Store, user: Store): seq<(bool, string)> {
    [(Has(meal, "meal_plan_text"), NeedPlan),
     (Has(tracker, "summary"), NeedEvaluation),
     (Has(motivation, "motivation_text"), NeedMotivation),
     (Has(user, "name"), NeedName)]
  }

  /** The first failing check, if any. */
  function FirstFailure(checks: seq<(bool, string)>): (r: Option<nat>)
    ensures r.Some? ==> r.value < |checks| && !checks[r.value].0
    ensures r.Some? ==> forall j :: 0 <= j < r.value ==> checks[j].0
    ensures r.None? <==> forall j :: 0 <= j < |checks| ==> checks[j].0
  {
    if |checks| == 0 then None
    else if !checks[0].0 then Some(0)
    else match FirstFailure(checks[1..])
      case None => None
      case Some(i) => Some(i + 1)
  }

  /** The guards form a chain: the first failing check decides the message
      and clears the download, and the report is sent only when all four
      pass. */
  lemma GuardPrecedence(nClicks: Value, meal: Store, tracker: Store,
                        motivation: Store, user: Store)
    requires Truthy(nClicks)
    ensures var checks := Checks(meal, tracker, motivation, user);
      var (data, status) := DownloadReport(nClicks, meal, tracker, motivation, user);
      match FirstFailure(checks)
      case Some(i) => data == Cleared && status == checks[i].1
      case None => data.Sent? && status == ReportReady
  {
    var checks := Checks(meal, tracker, motivation, user);
    var f := FirstFailure(checks);
    if f.Some? {
      assert f.value == 0 || checks[0].0;
      assert f.value <= 1 || checks[1].0;
      assert f.value <= 2 || checks[2].0;
    } else {
      assert checks[0].0 && checks[1].0 && checks[2].0 && checks[3].0;
    }
  }

  /** A sent report carries the stored texts and the profile as they are. */
  lemma SentReportContents(nClicks: Value, meal: Store, tracker: Store,
                           motivation: Store, user: Store)
    requires DownloadReport(nClicks, meal, tracker, motivation, user).0.Sent?
    ensures var r := DownloadReport(nClicks, meal, tracker, motivation, user).0.report;
      && meal.Some? && tracker.Some? && motivation.Some? && user.Some?
      && r.username == Some(ToStr(user.value["name"]))
      && r.mealPlan == Some(ToStr(meal.value["meal_plan_text"]))
      && r.trackerSummary == Some(ToStr(tracker.value["summary"]))
      && r.motivation == Some(ToStr(motivation.value["motivation_text"]))
      && r.userProfile == user.value
  {
  }

  /** Whatever `evaluate_commitment` writes to the tracker store, a completed
      evaluation or a failed one, satisfies the report's evaluation check. */
  lemma EvaluationSatisfiesReportCheck(nClicks: Value, planned: Value, eaten: Value,
                                       user: Store, reply: AgentReply)
    requires Tracker.EvaluateCommitment(nClicks, planned, eaten, user, reply).summaryStore.Set?
    ensures Has(Some(Tracker.EvaluateCommitment(nClicks, planned, eaten, user, reply).summaryStore.value), "summary")
  {
  }

  const CustomerName: string := "العميل"
  const NoPlanText: string := "لا توجد خطة وجبات متاحة."
  const NoEvaluationText: string := "لا يوجد تقييم التزام متاح."
  const NoMotivationText: string := "لا يوجد تحفيز متاح."

  /** The name in the report title: the user's name, or a neutral "customer"
      for a missing name and for the guest placeholder. */
  function DisplayName(username: Option<string>): (r: string)
    ensures r != "" && r != GuestName
    ensures username.Some? && username.value != "" && username.value != GuestName ==> r == username.value
    ensures username.None? || username.value == "" || username.value == GuestName ==> r == CustomerName
  {
    if username.Some? && username.value != "" && username.value != GuestName then username.value
    else CustomerName
  }

  /** `text.replace('\n', '<br>')`. */
  function NewlinesToBreaks(text: string): (r: string)
    ensures '\n' !in r
    ensures |r| >= |text|
  {
    if |text| == 0 then ""
    else (if text[0] == '\n' then "<br>" else [text[0]]) + NewlinesToBreaks(text[1..])
  }

  /** A `<br>` tag starts at position `i`. */
  predicate BreakTagAt(text: string, i: int) {
    0 <= i && i + 4 <= |text| &&
    text[i] == '<' && text[i + 1] == 'b' && text[i + 2] == 'r' && text[i + 3] == '>'
  }

  ghost predicate HasBreakTag(text: string) {
    exists i :: BreakTagAt(text, i)
  }

  /** Turning every `<br>` back into a line break, scanning left to right. */
  function BreaksToNewlines(html: string): string {
    if |html| == 0 then ""
    else if BreakTagAt(html, 0) then "\n" + BreaksToNewlines(html[4..])
    else [html[0]] + BreaksToNewlines(html[1..])
  }

  /** The first character after the substitution: a line break becomes `<`. */
  lemma FirstAfterSubstitution(text: string)
    requires |text| > 0
    ensures |NewlinesToBreaks(text)| > 0
    ensures NewlinesToBreaks(text)[0] == if text[0] == '\n' then '<' else text[0]
  {
  }

  /** Unless the text starts with a line break, a tag at the start of the
      substituted text was already in the text: an inserted tag cannot
      supply the `b`, `r` or `>` of a tag, since it starts with `<`. */
  lemma {:induction false} LeadingTagComesFromText(text: string)
    requires |text| > 0 && text[0] != '\n'
    ensures BreakTagAt(NewlinesToBreaks(text), 0) ==> BreakTagAt(text, 0)
  {
    assert NewlinesToBreaks(text) == [text[0]] + NewlinesToBreaks(text[1..]);
    if |text| >= 2 {
      FirstAfterSubstitution(text[1..]);
      assert NewlinesToBreaks(text[1..]) ==
        (if text[1] == '\n' then "<br>" else [text[1]]) + NewlinesToBreaks(text[2..]);
    }
    if |text| >= 3 {
      FirstAfterSubstitution(text[2..]);
      assert NewlinesToBreaks(text[2..]) ==
        (if text[2] == '\n' then "<br>" else [text[2]]) + NewlinesToBreaks(text[3..]);
    }
    if |text| >= 4 {
      FirstAfterSubstitution(text[3..]);
    }
  }

  /** The substitution loses nothing for text that does not already contain
      a `<br>` tag: every tag in the result stands for one line break. */
  lemma {:induction false} SubstitutionReverses(text: string)
    requires !HasBreakTag(text)
    ensures BreaksToNewlines(NewlinesToBreaks(text)) == text
  {
    if |text| > 0 {
      var rest := text[1..];
      assert !HasBreakTag(rest) by {
        forall i | BreakTagAt(rest, i) ensures BreakTagAt(text, i + 1) { }
      }
      SubstitutionReverses(rest);
      var r := NewlinesToBreaks(rest);
      var h := NewlinesToBreaks(text);
      if text[0] == '\n' {
        assert h == "<br>" + r;
        assert h[4..] == r;
      } else {
        assert h == [text[0]] + r;
        assert h[1..] == r;
        LeadingTagComesFromText(text);
        assert !BreakTagAt(text, 0);
      }
    }
  }

  /** The texts `generate_html_report_content` places in the page: the title
      name, the three content boxes and the ten profile cells. The rest of the
      page is fixed markup around them (and the clock reading). */
  datatype ReportView = ReportView(
    titleName: string,
    mealPlan: string,
    trackerSummary: string,
    motivation: string,
    profileCells: seq<string>)

  const Unavailable: string := "غير متوفر"

  /** The profile keys in table order, each with the text shown when the
      profile lacks it. */
  const ProfileRows: seq<(string, string)> := [
    ("name", Unavailable), ("weight", Unavailable), ("height", Unavailable),
    ("age", Unavailable), ("sex", Unavailable), ("activity_level", Unavailable),
    ("goal", Unavailable), ("diet_type", Unavailable), ("allergy", NoneGiven),
    ("conditions", NoneGiven)]

  /** `report_data.get(key, default)` for one of the report texts. */
  function TextOr(text: Option<string>, default: string): string {
    if text.Some? then text.value else default
  }

  /** One content box: the text, or its default, with `\n` replaced by `<br>`.
      The box turns back into that text when the text had no tag of its own. */
  function Box(text: Option<string>, default: string): (r: string)
    ensures '\n' !in r
    ensures !HasBreakTag(TextOr(text, default)) ==> BreaksToNewlines(r) == TextOr(text, default)
  {
    var t := TextOr(text, default);
    assert !HasBreakTag(t) ==> BreaksToNewlines(NewlinesToBreaks(t)) == t by {
      if !HasBreakTag(t) {
        SubstitutionReverses(t);
      }
    }
    NewlinesToBreaks(t)
  }

  /** The profile table: `user_profile.get(key, fallback)` for each row. */
  function ProfileCells(profile: Dict): (c: seq<string>)
    ensures |c| == |ProfileRows|
    ensures forall i :: 0 <= i < |ProfileRows| && ProfileRows[i].0 in profile ==>
      c[i] == ToStr(profile[ProfileRows[i].0])
    ensures forall i :: 0 <= i < |ProfileRows| && ProfileRows[i].0 !in profile ==>
      c[i] == ProfileRows[i].1
  {
    seq(|ProfileRows|, i requires 0 <= i < |ProfileRows| =>
      ToStr(GetOr(profile, ProfileRows[i].0, Str(ProfileRows[i].1))))
  }

  function GenerateHtmlReportContent(data: ReportData): (v: ReportView)
    ensures v.titleName == DisplayName(data.username)
    ensures '\n' !in v.mealPlan && '\n' !in v.trackerSummary && '\n' !in v.motivation
    ensures var t := TextOr(data.mealPlan, NoPlanText);
      !HasBreakTag(t) ==> BreaksToNewlines(v.mealPlan) == t
    ensures var t := TextOr(data.trackerSummary, NoEvaluationText);
      !HasBreakTag(t) ==> BreaksToNewlines(v.trackerSummary) == t
    ensures var t := TextOr(data.motivation, NoMotivationText);
      !HasBreakTag(t) ==> BreaksToNewlines(v.motivation) == t
    ensures |v.profileCells| == |ProfileRows|
    ensures forall i :: 0 <= i < |ProfileRows| && ProfileRows[i].0 in data.userProfile ==>
      v.profileCells[i] == ToStr(data.userProfile[ProfileRows[i].0])
    ensures forall i :: 0 <= i < |ProfileRows| && ProfileRows[i].0 !in data.userProfile ==>
      v.profileCells[i] == ProfileRows[i].1
  {
    ReportView(
      DisplayName(data.username),
      Box(data.mealPlan, NoPlanText),
      Box(data.trackerSummary, NoEvaluationText),
      Box(data.motivation, NoMotivationText),
      ProfileCells(data.userProfile))
  }
}

=== FILE: tracker.dfy ===
/** The adherence evaluation callback `evaluate_commitment`
    (Diet_planner/app.py:471-518): the parsed percentage, its colour band, the
    two pie values and what goes to the tracker summary store. */
module Tracker {
  import opened Decimal
  import opened PyValue
  import opened Percentage

  /** The four adherence tiers, from worst to best. */
  datatype Band = Red | Orange | Yellow | Green

  /** The tier of a percentage; the ranges are the ones the tracker prompt
      asks the agent to use (85 or more, 70 to 84, 50 to 69, under 50). */
  function BandOf(p: int): (b: Band)
    ensures b == Green <==> p >= 85
    ensures b == Yellow <==> 70 <= p <= 84
    ensures b == Orange <==> 50 <= p <= 69
    ensures b == Red <==> p < 50
  {
    if p >= 85 then Green
    else if p >= 70 then Yellow
    else if p >= 50 then Orange
    else Red
  }

  function Rank(b: Band): nat {
    match b
    case Red => 0
    case Orange => 1
    case Yellow => 2
    case Green => 3
  }

  predicate IsHexDigit(c: char) {
    '0' <= c <= '9' || 'a' <= c <= 'f'
  }

  /** The chart colour of each tier: a `#rrggbb` hex colour. */
  function Colour(b: Band): (c: string)
    ensures |c| == 7 && c[0] == '#' && forall i :: 1 <= i < 7 ==> IsHexDigit(c[i])
  {
    match b
    case Green => "#28a745"
    case Yellow => "#ffc107"
    case Orange => "#fd7e14"
    case Red => "#dc3545"
  }

  /** A higher percentage never gets a worse tier. */
  lemma BandMonotone(p: int, q: int)
    requires p <= q
    ensures Rank(BandOf(p)) <= Rank(BandOf(q))
  {
  }

  /** No two tiers share a colour, so the colour tells the tier. */
  lemma ColourIdentifiesBand(b: Band, c: Band)
    requires Colour(b) == Colour(c)
    ensures b == c
  {
  }

  /** The pie's two slices: the percentage and what remains of 100. */
  function PieValues(p: int): (v: seq<int>)
    ensures |v| == 2 && v[0] == p && v[0] + v[1] == 100
    ensures v[1] < 0 <==> p > 100
  {
    [p, 100 - p]
  }

  datatype Figure = Blank | Pie(values: seq<int>, colour: string, centreText: string)

  /** The four outputs: tracker text, tracker summary store, figure, error text. */
  datatype TrackerOutcome = TrackerOutcome(
    output: string,
    summaryStore: Update<Dict>,
    figure: Figure,
    error: string)

  const CommitmentLabel: string := "نسبة الالتزام: "
  const MissingMealsOutput: string := "الرجاء إدخال الخطة الغذائية وما تم تناوله فعليًا."
  const MissingMealsError: string := "خطأ: الرجاء ملء حقول الخطة الغذائية وما تم تناوله فعليًا."
  const FailedSummary: string := "خطأ في التقييم"
  const FailurePrefix: string := "حدث خطأ أثناء تقييم الالتزام: "
  /** What `None.get(...)` raises when the user store holds no dictionary. */
  const NoneGetDetail: string := "'NoneType' object has no attribute 'get'"

  /** CPython's default cap on the digits `int()` reads from a string and
      `str()` writes (`sys.get_int_max_str_digits()`, in Python 3.11 and
      later and in the 3.10.7 and 3.9.14 security releases). */
  const MaxStrDigits: nat := 4300

  /** The ValueError `int()` raises past the cap (CPython 3.12 wording). */
  function IntLimitDetail(digits: nat): string {
    "Exceeds the limit (4300 digits) for integer string conversion: value has "
      + Format(digits) + " digits; use sys.set_int_max_str_digits() to increase the limit"
  }

  /** The text shown and stored as the summary: the label, the percentage
      with `%`, a blank line, then the raw reply unchanged. `SummaryReparses`
      shows the percentage can be read back from it. */
  function DisplayText(p: nat, raw: string): (r: string)
    ensures |r| == |CommitmentLabel| + |Format(p)| + 3 + |raw|
    ensures r[..|CommitmentLabel|] == CommitmentLabel
    ensures r[|r| - |raw|..] == raw
    ensures r[|CommitmentLabel|..|r| - |raw|] == Format(p) + "%\n\n"
  {
    CommitmentLabel + Format(p) + "%\n\n" + raw
  }

  function SummaryStore(summary: string, p: int): Dict {
    map["summary" := Str(summary), "commitment_percentage" := Num(p)]
  }

  /** `evaluate_commitment`; the tracker agent's run is the `reply` parameter. */
  function EvaluateCommitment(nClicks: Value, planned: Value, eaten: Value,
                              user: Store, reply: AgentReply): (o: TrackerOutcome)
    ensures o.summaryStore.Set? <==> Truthy(nClicks) && Truthy(planned) && Truthy(eaten)
    ensures o.figure.Pie? <==>
      o.summaryStore.Set? && user.Some? && reply.Completed? && DigitCount(reply.raw) <= MaxStrDigits
    ensures o.error == "" <==> !Truthy(nClicks) || o.figure.Pie?
    ensures !Truthy(nClicks) ==> o == TrackerOutcome("", NoUpdate, Blank, "")
    ensures Truthy(nClicks) && !(Truthy(planned) && Truthy(eaten)) ==>
      o == TrackerOutcome(MissingMealsOutput, NoUpdate, Blank, MissingMealsError)
    ensures o.summaryStore.Set? && !o.figure.Pie? ==>
      o.summaryStore.value == SummaryStore(FailedSummary, 0) && o.output == "" && o.figure == Blank
    ensures o.summaryStore.Set? && user.None? ==> o.error == FailurePrefix + NoneGetDetail
    ensures o.summaryStore.Set? && user.Some? && reply.Raised? ==> o.error == FailurePrefix + reply.detail
  {
    if !Truthy(nClicks) then TrackerOutcome("", NoUpdate, Blank, "")
    else if !Truthy(planned) || !Truthy(eaten) then
      TrackerOutcome(MissingMealsOutput, NoUpdate, Blank, MissingMealsError)
    else if user.None? then Failure(NoneGetDetail)
    else
      match reply
      case Raised(detail) => Failure(detail)
      case Completed(raw) =>
        if DigitCount(raw) > MaxStrDigits then Failure(IntLimitDetail(DigitCount(raw)))
        else
        var p := ParsePercentage(raw);
        var display := DisplayText(p, raw);
        TrackerOutcome(display, Set(SummaryStore(display, p)),
                       Pie(PieValues(p), Colour(BandOf(p)), Format(p) + "%"), "")
  }

  function Failure(detail: string): TrackerOutcome {
    TrackerOutcome("", Set(SummaryStore(FailedSummary, 0)), Blank, FailurePrefix + detail)
  }

  /** Reading the stored summary back gives the stored percentage: the label
      carries no digit and no `%`, so the first `%` after a digit is the one
      written after the number. */
  lemma {:induction false} SummaryReparses(p: nat, raw: string)
    ensures ParsePercentage(DisplayText(p, raw)) == p
  {
    var f := Format(p);
    var s := DisplayText(p, raw);
    var a := |CommitmentLabel|;
    var j := a + |f|;
    assert s == CommitmentLabel + f + "%\n\n" + raw;
    assert forall k :: 0 <= k < a ==> s[k] == CommitmentLabel[k];
    assert forall k :: a <= k < j ==> s[k] == f[k - a];
    assert forall k :: 0 <= k < a ==> !IsDigit(CommitmentLabel[k]) && CommitmentLabel[k] != '%';
    assert s[j] == '%';
    assert PercentAfterDigit(s, j);
    FirstPercentRule(s, j);
    RunStartIsMaximal(s, a, j);
    DigitsInSlice(s, a, j);
    assert s[a..j] == f;
    ParseFormat(p);
  }

  /** On a completed evaluation every output carries the same percentage:
      the store, the pie, its colour and centre text, and the summary text,
      which is the raw reply behind a fixed header. */
  lemma TrackerOutputsAgree(nClicks: Value, planned: Value, eaten: Value,
                            user: Dict, raw: string)
    requires Truthy(nClicks) && Truthy(planned) && Truthy(eaten)
    requires DigitCount(raw) <= MaxStrDigits
    ensures var o := EvaluateCommitment(nClicks, planned, eaten, Some(user), Completed(raw));
      var p := ParsePercentage(raw);
      && o.summaryStore == Set(SummaryStore(o.output, p))
      && o.output == CommitmentLabel + Format(p) + "%\n\n" + raw
      && o.output[|o.output| - |raw|..] == raw
      && o.figure == Pie([p, 100 - p], Colour(BandOf(p)), Format(p) + "%")
      && ParsePercentage(o.output) == p
  {
    var p := ParsePercentage(raw);
    var o := EvaluateCommitment(nClicks, planned, eaten, Some(user), Completed(raw));
    assert o.output == DisplayText(p, raw);
    SummaryReparses(p, raw);
  }

  /** A number group longer than the cap makes `int()` raise inside the
      `try`: the failure store is written and no pie is drawn. */
  lemma OverlongNumberFails(nClicks: Value, planned: Value, eaten: Value,
                            user: Dict, raw: string)
    requires Truthy(nClicks) && Truthy(planned) && Truthy(eaten)
    requires DigitCount(raw) > MaxStrDigits
    ensures var o := EvaluateCommitment(nClicks, planned, eaten, Some(user), Completed(raw));
      && o.summaryStore == Set(map["summary" := Str(FailedSummary), "commitment_percentage" := Num(0)])
      && o.figure == Blank && o.output == ""
      && o.error == FailurePrefix + IntLimitDetail(DigitCount(raw))
  {
  }

  /** Once `int()` has read the number, writing it back never hits the cap:
      the percentage has no more digits than the group it came from. */
  lemma {:induction false} DisplayWithinLimit(raw: string)
    requires DigitCount(raw) <= MaxStrDigits
    ensures |Format(ParsePercentage(raw))| <= MaxStrDigits
  {
    var p := ParsePercentage(raw);
    var n := DigitCount(raw);
    if n == 0 {
      assert p == 0;
    } else {
      FormatLength(p, n);
    }
  }
}

=== FILE: validation.dfy ===
/** The required-field check shared by `generate_meal_plan`, `navigate_next`
    and `show_navigation_errors`, and the input defaults of
    `generate_meal_plan` (Diet_planner/app.py:415-438). */
module Validation {
  import opened PyValue
  import opened Profile

  /** The fields a meal plan cannot be generated without, in the order the
      error message lists them. */
  const RequiredFields: seq<string> := ["weight", "height", "age", "sex", "activity_level", "goal"]

  /** `[f for f in fields if not d.get(f)]`. */
  function MissingFrom(fields: seq<string>, d: Dict): (r: seq<string>)
    ensures forall f :: f in r <==> f in fields && !Truthy(Get(d, f))
    ensures |r| <= |fields|
  {
    if |fields| == 0 then []
    else
      var rest := MissingFrom(fields[1..], d);
      if Truthy(Get(d, fields[0])) then rest else [fields[0]] + rest
  }

  function MissingFields(d: Dict): seq<string> {
    MissingFrom(RequiredFields, d)
  }

  /** `all(d.get(f) for f in RequiredFields)`. */
  predicate AllRequiredPresent(d: Dict) {
    forall f :: f in RequiredFields ==> Truthy(Get(d, f))
  }

  /** The missing list is empty exactly when the `all(...)` check passes. */
  lemma MissingEmptyIffAllPresent(d: Dict)
    ensures MissingFields(d) == [] <==> AllRequiredPresent(d)
  {
    if MissingFields(d) != [] {
      assert MissingFields(d)[0] in MissingFields(d);
    }
  }

  /** `a` is `b` with some elements dropped, the rest kept in order. */
  predicate IsSubsequence(a: seq<string>, b: seq<string>) {
    if |a| == 0 then true
    else if |b| == 0 then false
    else if a[0] == b[0] then IsSubsequence(a[1..], b[1..])
    else IsSubsequence(a, b[1..])
  }

  predicate Distinct(b: seq<string>) {
    forall i, j :: 0 <= i < j < |b| ==> b[i] != b[j]
  }

  lemma {:induction false} MissingIsSubsequence(fields: seq<string>, d: Dict)
    ensures IsSubsequence(MissingFrom(fields, d), fields)
  {
    if |fields| > 0 {
      MissingIsSubsequence(fields[1..], d);
    }
  }

  lemma {:induction false} SubsequenceMembers(a: seq<string>, b: seq<string>, x: string)
    requires IsSubsequence(a, b) && x in a
    ensures x in b
  {
    if a[0] == b[0] {
      if x != a[0] {
        assert x in a[1..];
        SubsequenceMembers(a[1..], b[1..], x);
      }
    } else {
      SubsequenceMembers(a, b[1..], x);
    }
  }

  /** Over a list without repeats, an ordered sub-list is fixed by which
      elements it keeps. */
  lemma {:induction false} SubsequenceDeterminedByMembers(a: seq<string>, a': seq<string>, b: seq<string>)
    requires Distinct(b) && IsSubsequence(a, b) && IsSubsequence(a', b)
    requires forall x :: x in a <==> x in a'
    ensures a == a'
    decreases |b|
  {
    assert |a| > 0 ==> a[0] in a';
    assert |a'| > 0 ==> a'[0] in a;
    if |a| > 0 && |a'| > 0 {
      assert Distinct(b[1..]) by {
        forall i, j | 0 <= i < j < |b[1..]| ensures b[1..][i] != b[1..][j] {
          assert b[1..][i] == b[i + 1] && b[1..][j] == b[j + 1];
        }
      }
      var head := b[0];
      assert head !in b[1..] by {
        forall i | 0 <= i < |b[1..]| ensures b[1..][i] != head {
          assert b[1..][i] == b[i + 1];
        }
      }
      if a[0] == head {
        if a'[0] != head {
          assert head in a';
          SubsequenceMembers(a', b[1..], head);
        }
        forall x ensures x in a[1..] <==> x in a'[1..] {
          if x in a[1..] {
            SubsequenceMembers(a[1..], b[1..], x);
            assert x in a';
          }
          if x in a'[1..] {
            SubsequenceMembers(a'[1..], b[1..], x);
            assert x in a;
          }
        }
        SubsequenceDeterminedByMembers(a[1..], a'[1..], b[1..]);
        assert a == [a[0]] + a[1..] && a' == [a'[0]] + a'[1..];
      } else {
        if a'[0] == head {
          assert head in a;
          SubsequenceMembers(a, b[1..], head);
        }
        SubsequenceDeterminedByMembers(a, a', b[1..]);
      }
    }
  }

  /** The missing list is exactly the sub-list of the required fields whose
      values are absent or falsy: any ordered sub-list with those members is it. */
  lemma MissingFieldsExactly(d: Dict, a: seq<string>)
    requires IsSubsequence(a, RequiredFields)
    requires forall f :: f in a <==> f in RequiredFields && !Truthy(Get(d, f))
    ensures a == MissingFields(d)
  {
    MissingIsSubsequence(RequiredFields, d);
    SubsequenceDeterminedByMembers(a, MissingFields(d), RequiredFields);
  }

  /** The value `generate_meal_plan` puts under form key `k`: the guest name
      or the key's fallback in place of a falsy input. */
  function PlanInput(inp: FormInputs, k: string): Value {
    if k == "name" then Or(inp.name, GuestName)
    else match DefaultFor(k)
      case Some(text) => Or(InputFor(inp, k), text)
      case None => InputFor(inp, k)
  }

  /** The `user_inputs` dictionary `generate_meal_plan` builds: the form
      values, with a guest name and the diet, allergy and conditions
      fallbacks in place of falsy ones. */
  function MealPlanInputs(inp: FormInputs): (d: Dict)
    ensures d.Keys == FormKeys
    ensures forall f :: f in RequiredFields ==> d[f] == InputFor(inp, f)
    ensures Truthy(d["name"]) && Truthy(d["diet_type"]) && Truthy(d["allergy"]) && Truthy(d["conditions"])
    ensures Truthy(inp.name) ==> d["name"] == inp.name
    ensures !Truthy(inp.name) ==> d["name"] == Str(GuestName)
    ensures Truthy(inp.diet) ==> d["diet_type"] == inp.diet
    ensures !Truthy(inp.diet) ==> d["diet_type"] == Str(DefaultDiet)
    ensures Truthy(inp.allergy) ==> d["allergy"] == inp.allergy
    ensures !Truthy(inp.allergy) ==> d["allergy"] == Str(NoneGiven)
    ensures Truthy(inp.conditions) ==> d["conditions"] == inp.conditions
    ensures !Truthy(inp.conditions) ==> d["conditions"] == Str(NoneGiven)
  {
    map k | k in FormKeys :: PlanInput(inp, k)
  }

  const IncompleteMessage: string := "الرجاء ملء جميع البيانات الأساسية (الوزن، الطول، العمر، الجنس، مستوى النشاط، الهدف)"
  const PlanFailurePrefix: string := "حدث خطأ أثناء توليد خطة الوجبات: "

  /** The three outputs: plan text, meal-plan store, error text. */
  datatype MealPlanOutcome = MealPlanOutcome(
    output: Update<string>,
    data: Update<Dict>,
    error: Update<string>)

  /** `generate_meal_plan`; the meal-planner agent's run (including the
      input preparation it is handed) is the `reply` parameter and the clock
      reading is `timestamp`. */
  function GenerateMealPlan(nClicks: Value, inp: FormInputs, reply: AgentReply,
                            timestamp: string): (o: MealPlanOutcome)
    ensures !Truthy(nClicks) <==> o == MealPlanOutcome(NoUpdate, NoUpdate, NoUpdate)
    ensures o.data.Set? && "meal_plan_text" in o.data.value <==>
      Truthy(nClicks) && AllRequiredPresent(MealPlanInputs(inp)) && reply.Completed?
    ensures o.data.Set? && "meal_plan_text" !in o.data.value ==> o.data.value == map[]
    ensures o.data.Set? && "meal_plan_text" in o.data.value ==>
      && reply.Completed?
      && o.data.value["meal_plan_text"] == Str(reply.raw)
      && o.output == Set(reply.raw) && o.error == Set("")
    ensures Truthy(nClicks) && !(o.data.Set? && "meal_plan_text" in o.data.value) ==>
      && o.output == Set("") && o.data == Set(map[])
      && o.error.Set? && o.error.value != ""
    ensures Truthy(nClicks) && !AllRequiredPresent(MealPlanInputs(inp)) ==> o.error == Set(IncompleteMessage)
    ensures Truthy(nClicks) && AllRequiredPresent(MealPlanInputs(inp)) && reply.Raised? ==>
      o.error == Set(PlanFailurePrefix + reply.detail)
  {
    if !Truthy(nClicks) then MealPlanOutcome(NoUpdate, NoUpdate, NoUpdate)
    else
      var userInputs := MealPlanInputs(inp);
      if !AllRequiredPresent(userInputs) then
        MealPlanOutcome(Set(""), Set(map[]), Set(IncompleteMessage))
      else
        match reply
        case Raised(detail) => MealPlanOutcome(Set(""), Set(map[]), Set(PlanFailurePrefix + detail))
        case Completed(raw) =>
          MealPlanOutcome(Set(raw),
            Set(map["meal_plan_text" := Str(raw), "user_inputs" := Nested(userInputs),
                    "timestamp" := Str(timestamp)]),
            Set(""))
  }

  /** The gate of `generate_meal_plan` looks at the raw required inputs only:
      the defaults never touch a required field. */
  lemma GenerateChecksRawInputs(inp: FormInputs)
    ensures AllRequiredPresent(MealPlanInputs(inp)) <==>
      forall f :: f in RequiredFields ==> Truthy(InputFor(inp, f))
  {
  }

  /** A stored profile passes the navigation check exactly when the same
      inputs would pass `generate_meal_plan`'s check: after the merge, the
      required keys hold the given inputs. */
  lemma StoredProfileGate(inp: FormInputs, current: Store)
    requires forall f :: f in RequiredFields ==> !InputFor(inp, f).Null?
    ensures MissingFields(UpdateUserData(inp, current)) == [] <==>
      AllRequiredPresent(MealPlanInputs(inp))
  {
    var r := UpdateUserData(inp, current);
    forall f | f in RequiredFields ensures Get(r, f) == InputFor(inp, f) {
      GivenInputStored(inp, current, f);
    }
    MissingEmptyIffAllPresent(r);
    GenerateChecksRawInputs(inp);
  }
}
